=== FILE: README.md ===
# Nexus project screens: the decision rules, in Dafny

The app is a React Native front end that tracks construction projects.
Around its rendering code sit a few small, pure rules, and this project
models them:

- **Home dashboard** (`Home`): maps each main-dashboard API record to a
  card. The card gets an id, a title defaulting to "Unnamed Project", a
  remote or bundled image, two progress gauges clamped to 0..100, and a
  company defaulting to "Constructed". A failed request shows three fixed
  cards instead. A response without `data` shows nothing.
- **Project list** (`ProjectScreen`): maps each project record to an
  entry. The entry gets a string id, the raw `project_id`, three address
  lines and an image. The list falls back in the same way as Home. The
  screen also has the Active/Archive status picker and the press routing:
  "Oran Park Rest 3" opens the phases screen, and every other entry opens
  the details screen.
- **Search** (`Search`): both lists keep an item iff its lower-cased title
  contains the lower-cased query. The model states this as an
  order-preserving sub-sequence with exact membership.
- **Dropdowns** (`Dropdown`): `options.find(...)` label lookup, and
  `CustomDropdown`'s open/choose behaviour and button text.
- **Phases screen** (`Phases`): routing when a phase card is pressed, and
  the Finishes dialog. Confirm in that dialog needs a building and a core.
  Level and unit are optional. Cancel keeps the selections.
- **Selection store** (`ProjectStore`): two nullable fields, two setters
  and a clear.

JavaScript values are modelled explicitly (`Values`). A record field is
`Missing` (reads as `undefined`), `Null` or `Present`. Truthiness, `a || b`
and string `+` follow JavaScript. For example, `undefined + ', '` gives
`"undefined, "`. Request outcomes are abstract (`Fetch.Outcome`): the
`try` block threw, or the body parsed with or without a `data` array.

Four facts about the code shape the model:

- The address lines are read from the structured `location` fields
  (src/DrawerTab/ProjectScreen.tsx:41-43).
- The picture URL is used exactly as it arrives, with no prefix
  (src/HomeTab/Home.tsx:41).
- A failed request replaces the list with fixed records
  (src/HomeTab/Home.tsx:53-81, src/DrawerTab/ProjectScreen.tsx:53-84).
- The ProjectScreen title is `item.name`, with no default
  (src/DrawerTab/ProjectScreen.tsx:39).

Some consequences of the code, as the contracts state them:

- In ProjectScreen, `addressLine3` is `city + ', ' + state || 'Australia'`.
  `+` binds tighter than `||`, so the left operand is never empty and the
  "Australia" fallback is never taken. A missing location shows
  "undefined, undefined" (`ProjectScreen.AddressLine3`).
- In ProjectScreen, `item.id.toString()` throws inside the `try` when a
  record has no id. The whole response is then replaced by the fallback
  list (`ProjectScreen.Loaded`).
- In ProjectScreen, an entry whose `name` was absent has an undefined title.
  `item.title.toLowerCase()` then throws during the search
  (`ProjectScreen.Visible` returns None exactly then).
- The status picker changes only what is displayed. The request always
  asks for `status=Active`.

## Model

| member | source | states |
|---|---|---|
| Values.OrText | src/HomeTab/Home.tsx:40 | the or-default of a string field yields the field's text exactly when it is present and non-empty, else the default |
| Values.PictureOf | src/HomeTab/Home.tsx:41 | the image is `{ uri: profile_picture }` iff the picture field is truthy, with that uri; otherwise the bundled house asset |
| Values.NatToString | src/DrawerTab/ProjectScreen.tsx:38 | decimal text of a number is non-empty, all digits, and has no leading zero; 0 is exactly "0" |
| Values.IntToString | src/DrawerTab/ProjectScreen.tsx:38 | `toString` of an integer id starts with '-' iff the id is negative, followed by decimal digits with no leading zero; 0 prints as exactly "0" |
| Values.ParseNatToString | src/DrawerTab/ProjectScreen.tsx:38 | reading the decimal text of a natural number back yields the number |
| Values.ParseIntToString | src/DrawerTab/ProjectScreen.tsx:38 | the string id of a numeric record reads back as the record's numeric id |
| Values.ConcatText | src/DrawerTab/ProjectScreen.tsx:43 | a field joined into a string prints as its text when present, "undefined" when absent and "null" when null |
| Values.IdToString | src/DrawerTab/ProjectScreen.tsx:38 | a text id's `toString` is the text itself; a numeric id's is its canonical decimal text, non-empty and starting with '-' iff the id is negative |
| Values.IdToStringReadsBack | src/DrawerTab/ProjectScreen.tsx:38 | the `toString` of a numeric id reads back as that id |
| Values.IntToStringInjective | src/DrawerTab/ProjectScreen.tsx:38 | distinct numeric ids give distinct string ids, so list keys stay distinct |
| Search.ToLower | src/HomeTab/Home.tsx:93 | lower-casing keeps the length and lowers each character independently |
| Search.ToLowerHasNoUpper | src/HomeTab/Home.tsx:93 | a lower-cased string holds no upper-case letter; other characters are unchanged |
| Search.ToLowerIdempotent | src/HomeTab/Home.tsx:93 | lower-casing twice equals lower-casing once |
| Search.Includes | src/HomeTab/Home.tsx:93 | `includes` is true iff the needle occurs as a contiguous window of the haystack |
| Search.IncludesEmpty | src/HomeTab/Home.tsx:93 | the empty query is contained in every title |
| Search.Filter | src/HomeTab/Home.tsx:92-94 | the result is no longer than the input; it holds an item iff the item is in the input and its lower-cased title contains the lower-cased query |
| Search.KeptIndices | src/DrawerTab/ProjectScreen.tsx:117-119 | the kept positions are strictly increasing, in range, all match, and include every matching position |
| Search.FilterIsSubsequence | src/DrawerTab/ProjectScreen.tsx:117-119 | the k-th kept item is the input item at the k-th kept position: the filter is exactly the ordered sub-sequence of matches |
| Search.FilterEmptyQueryKeepsAll | src/HomeTab/Home.tsx:92-94 | an empty query keeps every item, in order |
| Search.FilterConcat | src/HomeTab/Home.tsx:92-94 | filtering a concatenation is the concatenation of the filtered parts |
| Search.FilterIdempotent | src/HomeTab/Home.tsx:92-94 | filtering the filtered list again with the same query changes nothing |
| Search.FilterIgnoresQueryCase | src/HomeTab/Home.tsx:93 | searching with the lower-cased query keeps exactly the same items as the original query |
| Home.Clamp | src/HomeTab/Home.tsx:42-43 | the clamped value lies in 0..100, equals the input inside that range, is 0 below it and 100 above it |
| Home.Progress | src/HomeTab/Home.tsx:42-43 | a gauge lies in 0..100 for every input, is 0 for a missing, null or zero field, and a truthy value is clamped, so 150 shows 100 and -5 shows 0 |
| Home.CardId | src/HomeTab/Home.tsx:39 | the card id is the record id's text when present and non-empty, otherwise the random text |
| Home.Company | src/HomeTab/Home.tsx:44 | company is the industry name when industry and its name are truthy, otherwise "Constructed" |
| Home.MapRecord | src/HomeTab/Home.tsx:38-46 | the card id is the record id's text or the random text; the red gauge is last week's productivity and the green the completion, each clamped and 0 when falsy; title is the name or "Unnamed Project"; image remote iff picture truthy; company as in Home.Company; status carried over |
| Home.MapRecords | src/HomeTab/Home.tsx:36-48 | mapping keeps the length and order: the i-th card comes from the i-th record |
| Home.Loaded | src/HomeTab/Home.tsx:36-81 | a throw yields exactly the three fallback cards, a body without data yields the empty list, data yields the mapped cards; every gauge lies in 0..100 in all cases |
| Home.Visible | src/HomeTab/Home.tsx:92-94 | a card is shown iff it is loaded and its lower-cased title contains the lower-cased query; in-range gauges stay in range |
| Home.VisibleIsSubsequence | src/HomeTab/Home.tsx:92-94 | the shown cards are the loaded cards at the matching positions, in their original order and multiplicity |
| Home.EmptyQueryShowsAll | src/HomeTab/Home.tsx:92-94 | an empty search box shows every loaded card |
| Home.FallbackCards | src/HomeTab/Home.tsx:56-81 | the fallback has three cards with ids "1", "2", "3", the house image and gauges in range |
| ProjectScreen.AddressLine1 | src/DrawerTab/ProjectScreen.tsx:41 | line 1 is `address_line_1` when location and the field are truthy, else "Address not available" |
| ProjectScreen.AddressLine2 | src/DrawerTab/ProjectScreen.tsx:42 | line 2 is `address_line_2` when location and the field are truthy, else the empty string |
| ProjectScreen.AddressLine3 | src/DrawerTab/ProjectScreen.tsx:43 | line 3 is always city text + ", " + state text; it is never "Australia"; a missing location gives "undefined, undefined" |
| ProjectScreen.MapRecord | src/DrawerTab/ProjectScreen.tsx:37-46 | mapping throws iff the id is absent or null; otherwise id is the id's `toString`, project_id the raw id, title the name verbatim, address lines and image as above |
| ProjectScreen.MapIdentified | src/DrawerTab/ProjectScreen.tsx:37-46 | when every record has an id, the map yields one entry per record, in order, each the record's own mapping |
| ProjectScreen.MapRecords | src/DrawerTab/ProjectScreen.tsx:35-48 | the map throws iff some record lacks an id; otherwise the i-th entry comes from the i-th record |
| ProjectScreen.Loaded | src/DrawerTab/ProjectScreen.tsx:35-84 | a throw, or a record without id, yields exactly the three fallback projects; a body without data yields the empty list; otherwise the mapped records in order |
| ProjectScreen.Visible | src/DrawerTab/ProjectScreen.tsx:117-119 | the search throws iff some entry's title is absent or null; otherwise an entry is shown iff it is in the list and its lower-cased title contains the lower-cased text |
| ProjectScreen.VisibleIsSubsequence | src/DrawerTab/ProjectScreen.tsx:117-119 | with all titles present the shown list is the ordered sub-sequence of matching entries |
| ProjectScreen.FallbackSearchable | src/DrawerTab/ProjectScreen.tsx:56-84 | the fallback list never makes the search throw, and an empty search shows all of it |
| ProjectScreen.NamedRecordsSearchable | src/DrawerTab/ProjectScreen.tsx:37-46 | records that all carry an id and a name load into a list the search never throws on |
| ProjectScreen.Press | src/DrawerTab/ProjectScreen.tsx:121-138 | the route is "CurrentProjectsPhases" iff the title is exactly "Oran Park Rest 3", else "ProjectDetails"; both pass the entry and its project_id |
| ProjectScreen.FallbackRoutes | src/DrawerTab/ProjectScreen.tsx:56-84 | the fallback ids are "1", "2", "3" and only the third fallback project routes to the phases screen |
| ProjectScreen.SelectStatus | src/DrawerTab/ProjectScreen.tsx:108-111 | selecting a status stores it and leaves the list closed |
| ProjectScreen.Toggle | src/DrawerTab/ProjectScreen.tsx:113-115 | toggling negates the open flag and keeps the status |
| ProjectScreen.Dismiss | src/DrawerTab/ProjectScreen.tsx:248-254 | the backdrop closes the list and keeps the status |
| ProjectScreen.StatusLabel | src/DrawerTab/ProjectScreen.tsx:206-210 | the button shows "Active" or "Archive" for those values and nothing for any other status |
| ProjectScreen.InitialMenuShowsActive | src/DrawerTab/ProjectScreen.tsx:15-16 | the status picker starts closed on "active", so its button reads "Active" |
| ProjectScreen.StatusMenuLaws | src/DrawerTab/ProjectScreen.tsx:108-115 | toggling twice is the identity; selecting is idempotent and ignores the open flag; dismissing is idempotent |
| Dropdown.FindIndex | src/DrawerTab/SubScreen/CurrentProjectsPhases.js:41 | find returns the first option carrying the value, or none when no option carries it |
| Dropdown.LabelOf | src/DrawerTab/SubScreen/CurrentProjectsPhases.js:41 | a label is found iff some option carries the value, and it is the label of the first option carrying it |
| Dropdown.LabelOfDistinct | src/DrawerTab/SubScreen/CurrentProjectsPhases.js:41 | with distinct option values the label found for an option's value is that option's label |
| Dropdown.ButtonText | src/DrawerTab/SubScreen/CurrentProjectsPhases.js:40-42 | with no selection the button reads "Select " + label; with one, the label of the option carrying the selected value |
| Dropdown.React | src/DrawerTab/SubScreen/CurrentProjectsPhases.js:31-65 | the button flips `open` and reports nothing; choosing an option reports its value and closes the list |
| Dropdown.ChooseShowsLabel | src/DrawerTab/SubScreen/CurrentProjectsPhases.js:40-65 | after choosing an option the button shows that option's label |
| Phases.OnPressCard | src/DrawerTab/SubScreen/CurrentProjectsPhases.js:167-173 | "Design" opens the design tasks with the card, "Finishes" shows the dialog, any other title does nothing |
| Phases.OnSelect | src/DrawerTab/SubScreen/CurrentProjectsPhases.js:214-253 | a dropdown's onSelect stores the value in its own slot and changes nothing else |
| Phases.OnConfirm | src/DrawerTab/SubScreen/CurrentProjectsPhases.js:270-284 | with building and core chosen, Confirm hides the dialog and opens the core tasks with all four selections (level and unit possibly null); otherwise it alerts and changes nothing; selections are never cleared |
| Phases.Handle | src/DrawerTab/SubScreen/CurrentProjectsPhases.js:205-290 | a card press, a selection and Confirm behave exactly as their own handlers; Cancel and the back request hide the dialog and keep the selections; only Confirm with building and core navigates to the core tasks; only the Finishes card shows the dialog |
| Phases.SlotOptions | src/DrawerTab/SubScreen/CurrentProjectsPhases.js:214-253 | each of the dialog's four option lists has at least two options, non-empty values and no value twice |
| Phases.DialogShowsChoice | src/DrawerTab/SubScreen/CurrentProjectsPhases.js:214-253 | choosing any option of any of the four dropdowns stores its value in that dropdown's own slot, and the button then shows the option's label |
| Phases.CardPresses | src/DrawerTab/SubScreen/CurrentProjectsPhases.js:107-173 | among the six phase cards only Design navigates and only Finishes opens the dialog |
| Phases.CancelKeepsSelections | src/DrawerTab/SubScreen/CurrentProjectsPhases.js:259-261 | after Cancel and reopening, the selections are those before, and Confirm behaves as before |
| Phases.ConfirmAfterChoosing | src/DrawerTab/SubScreen/CurrentProjectsPhases.js:214-284 | choosing any listed building and core makes Confirm navigate, passing level and unit as they are |
| Phases.InitialConfirmAlerts | src/DrawerTab/SubScreen/CurrentProjectsPhases.js:85-89 | with nothing selected, Confirm only raises the alert |
| ProjectStore.Initial | src/Store/useProjectStore.js:8-9 | both fields start null |
| ProjectStore.SetSelectedProjectId | src/Store/useProjectStore.js:12-15 | sets the selected id and leaves the project data unchanged |
| ProjectStore.SetProjectData | src/Store/useProjectStore.js:17 | sets the project data and leaves the selected id unchanged |
| ProjectStore.Clear | src/Store/useProjectStore.js:19 | from any state both fields become null |
| ProjectStore.StoreLaws | src/Store/useProjectStore.js:12-19 | each mutator is idempotent, the setters commute, the last write to a field wins, and clear absorbs any earlier set |
| ProjectStore.ClearThenSetRestores | src/Store/useProjectStore.js:12-19 | setting both fields after a clear rebuilds the original state |

## Left out

- HTTP: `fetch`, `response.ok` and `response.json()` are summarised by
  `Fetch.Outcome`, because I/O is outside the model. Both request URLs are
  single-quoted literals that contain `${baseUrl}` as plain text, so they
  are never interpolated. The model does not decide whether such a request
  succeeds.
- `saveProjectId` is not modelled. It writes the id to AsyncStorage and
  logs errors, which is external I/O.
- zustand's `persist` middleware is not modelled, because it is library
  storage behaviour. The store is modelled in memory only.
- `Math.random().toString()` is replaced by a parameter: `randomId(i)` is
  the text produced for the i-th record.
- The `loading` flags, spinners, the "No projects found" view and all
  rendering, styling, icons and animation are left out. They are
  presentation only.
- `CustomDropdown` keeps its `open` flag in component state. That state is
  reset when the dialog unmounts. The model treats each dropdown on its own
  and does not track the reset.
- The horizontal summary cards and src/DrawerTab/DesignPhase/DesignTask.tsx
  hold only static display data, so they are left out.
- Search.ToLower: lower-cases ASCII letters only. JavaScript's full Unicode
  case mapping is not modelled.
- Home.Progress: productivity and completion are modelled as exact reals.
  NaN, non-numeric values and `toFixed` rounding for display are not
  modelled.
- Values.IntToString: numeric ids are integers. Non-integer and exponent
  renderings of JavaScript numbers are not modelled.
- `result.data` is taken to be an array of objects. A truthy `data` that
  is not an array, or one holding `null` or a non-object element, makes
  `.map` or `item.id` throw. Those cases behave as `Fetch.Outcome.Threw`,
  so the fallback list is shown.
- Names, pictures and address fields are modelled as strings when present.
  Non-string JSON values in those fields are not modelled.

=== FILE: dropdown.dfy ===
/** The option lists behind both dropdowns: the status picker of the
    project list and `CustomDropdown` in the Finishes dialog. */
module Dropdown {
  import opened Values

  /** An entry of `options`; `caption` is its `label`. */
  datatype Choice = Choice(caption: string, value: string)

  /** The position `options.findIndex(opt => opt.value === value)` would
      report: the first option carrying `value`, or None. */
  function FindIndex(options: seq<Choice>, value: string): (r: Option<int>)
    ensures r.Some? ==> 0 <= r.value < |options| && options[r.value].value == value
    ensures r.Some? ==> forall j :: 0 <= j < r.value ==> options[j].value != value
    ensures r.None? ==> forall j :: 0 <= j < |options| ==> options[j].value != value
  {
    if |options| == 0 then None
    else if options[0].value == value then Some(0)
    else match FindIndex(options[1..], value)
      case None => None
      case Some(k) => Some(k + 1)
  }

  /** `options.find(opt => opt.value === value)?.label`; None stands for
      `undefined`. */
  function LabelOf(options: seq<Choice>, value: string): (r: Option<string>)
    ensures r.Some? <==> exists i :: 0 <= i < |options| && options[i].value == value
    ensures r.Some? ==> exists i ::
      && 0 <= i < |options|
      && options[i].value == value
      && r.value == options[i].caption
      && (forall j :: 0 <= j < i ==> options[j].value != value)
  {
    match FindIndex(options, value)
    case None => None
    case Some(i) => Some(options[i].caption)
  }

  /** When no two options share a value, the label found is the label of
      the option carrying it. */
  lemma LabelOfDistinct(options: seq<Choice>, i: int)
    requires 0 <= i < |options|
    requires forall j, k :: 0 <= j < k < |options| ==> options[j].value != options[k].value
    ensures LabelOf(options, options[i].value) == Some(options[i].caption)
  {
  }

  /** `selectedValue` of a `CustomDropdown`: `null` (None) or a string. */
  predicate Chosen(selected: Option<string>) {
    selected.Some? && selected.value != ""
  }

  /** The text on a `CustomDropdown` button: the label of the selected
      option when a value is selected, else `"Select " + label`, where
      `heading` is the dropdown's `label` prop. None is
      `undefined` (a selected value no option carries), which renders as
      nothing. */
  function ButtonText(heading: string, options: seq<Choice>, selected: Option<string>): (r: Option<string>)
    ensures !Chosen(selected) ==> r == Some("Select " + heading)
    ensures Chosen(selected) ==> r == LabelOf(options, selected.value)
  {
    if Chosen(selected) then LabelOf(options, selected.value) else Some("Select " + heading)
  }

  /** What a `CustomDropdown` does on a press: whether its list is open
      afterwards, and the value it hands to `onSelect`, if any. */
  datatype Reaction = Reaction(open: bool, reported: Option<string>)

  datatype Press = PressButton | PressOption(choice: Choice)

  /** The button flips `open`; an option (rendered only while the list is
      open) reports its value and closes the list. */
  function React(options: seq<Choice>, open: bool, press: Press): (r: Reaction)
    requires press.PressOption? ==> open && press.choice in options
    ensures press.PressButton? ==> r.open == !open && r.reported == None
    ensures press.PressOption? ==> !r.open && r.reported == Some(press.choice.value)
  {
    match press
    case PressButton => Reaction(!open, None)
    case PressOption(c) => Reaction(false, Some(c.value))
  }

  /** Choosing an option and storing the reported value makes the button
      show that option's label when option values are distinct. */
  lemma ChooseShowsLabel(heading: string, options: seq<Choice>, i: int)
    requires 0 <= i < |options| && options[i].value != ""
    requires forall j, k :: 0 <= j < k < |options| ==> options[j].value != options[k].value
    ensures ButtonText(heading, options, React(options, true, PressOption(options[i])).reported)
      == Some(options[i].caption)
  {
    LabelOfDistinct(options, i);
  }
}

=== FILE: fetch.dfy ===
/** How a screen's `fetchProjects` request ends, seen from the screen. The
    request, the HTTP status check and JSON parsing are not modelled; only
    where control goes afterwards matters. */
module Fetch {
  import opened Values

  /** `Threw`: the `try` block threw, which covers a network failure, a
      non-OK status, an unparsable body, and a truthy `data` that is not an
      array of objects (`.map` or `item.id` then throws). `Body(None)`: the
      parsed body or its `data` field is falsy. `Body(Some(records))`:
      `data` is an array whose elements are all objects. */
  datatype Outcome<+R> = Threw | Body(data: Option<seq<R>>)
}

=== FILE: home.dfy ===
/** The dashboard on the Home tab (src/HomeTab/Home.tsx): API records are
    mapped to progress cards, a failed request falls back to three fixed
    cards, and the search box filters the cards by title. */
module Home {
  import opened Values
  import Search
  import Fetch

  datatype Industry = Industry(name: Field<string>)

  /** One element of `result.data` from the main-dashboard report. */
  datatype DashboardRecord = DashboardRecord(
    id: Field<RawId>,
    name: Field<string>,
    profilePicture: Field<string>,
    lastWeekProductivity: Field<real>,
    completionPercentage: Field<real>,
    industry: Field<Industry>,
    status: Field<string>)

  /** A card as rendered: `redProgress` is last week's productivity and
      `greenProgress` the completion, both in percent. */
  datatype Card = Card(
    id: string,
    title: string,
    image: Image,
    redProgress: real,
    greenProgress: real,
    company: string,
    status: Field<string>)

  const Unnamed := "Unnamed Project"
  const DefaultCompany := "Constructed"

  /** `Math.min(Math.max(x, 0), 100)`. */
  function Clamp(x: real): (r: real)
    ensures 0.0 <= r <= 100.0
    ensures 0.0 <= x <= 100.0 ==> r == x
    ensures x < 0.0 ==> r == 0.0
    ensures x > 100.0 ==> r == 100.0
  {
    var atLeastZero := if x > 0.0 then x else 0.0;
    if atLeastZero < 100.0 then atLeastZero else 100.0
  }

  /** `x ? Math.min(Math.max(x, 0), 100) : 0` for a progress field. */
  function Progress(f: Field<real>): (r: real)
    ensures 0.0 <= r <= 100.0
    ensures !TruthyNumber(f) ==> r == 0.0
    ensures f.Present? && 0.0 <= f.value <= 100.0 ==> r == f.value
    ensures TruthyNumber(f) ==> r == Clamp(f.value)
  {
    if TruthyNumber(f) then Clamp(f.value) else 0.0
  }

  /** `item.id?.toString() || Math.random().toString()`; `random` is the
      text the random number printed as. */
  function CardId(id: Field<RawId>, random: string): (r: string)
    ensures id.Present? && id.value.NumId? ==> r == IntToString(id.value.n)
    ensures id.Present? && id.value.TextId? && id.value.s != "" ==> r == id.value.s
    ensures !id.Present? || id.value == TextId("") ==> r == random
  {
    var text := if id.Present? then Present(IdToString(id.value)) else Missing;
    OrText(text, random)
  }

  /** `item.industry?.name || 'Constructed'`. */
  function Company(industry: Field<Industry>): (r: string)
    ensures industry.Present? && TruthyText(industry.value.name) ==> r == industry.value.name.value
    ensures !industry.Present? || !TruthyText(industry.value.name) ==> r == DefaultCompany
  {
    var name := if industry.Present? then industry.value.name else Missing;
    OrText(name, DefaultCompany)
  }

  /** The object literal built for one record inside `result.data.map`. */
  function MapRecord(rec: DashboardRecord, random: string): (c: Card)
    ensures c.id == CardId(rec.id, random)
    ensures c.redProgress == Progress(rec.lastWeekProductivity)
    ensures c.greenProgress == Progress(rec.completionPercentage)
    ensures 0.0 <= c.redProgress <= 100.0 && 0.0 <= c.greenProgress <= 100.0
    ensures !TruthyNumber(rec.lastWeekProductivity) ==> c.redProgress == 0.0
    ensures !TruthyNumber(rec.completionPercentage) ==> c.greenProgress == 0.0
    ensures TruthyText(rec.name) ==> c.title == rec.name.value
    ensures !TruthyText(rec.name) ==> c.title == Unnamed
    ensures c.image.Remote? <==> TruthyText(rec.profilePicture)
    ensures c.image.Remote? ==> c.image.uri == rec.profilePicture.value
    ensures c.company == Company(rec.industry)
    ensures c.status == rec.status
  {
    Card(
      CardId(rec.id, random),
      OrText(rec.name, Unnamed),
      PictureOf(rec.profilePicture),
      Progress(rec.lastWeekProductivity),
      Progress(rec.completionPercentage),
      Company(rec.industry),
      rec.status)
  }

  /** `result.data.map(...)`: `randomId(i)` is what `Math.random()` printed
      while the i-th record was mapped. */
  function MapRecords(records: seq<DashboardRecord>, randomId: nat -> string): (cards: seq<Card>)
    ensures |cards| == |records|
    ensures forall i :: 0 <= i < |records| ==> cards[i] == MapRecord(records[i], randomId(i))
  {
    if |records| == 0 then []
    else
      var n := |records| - 1;
      MapRecords(records[..n], randomId) + [MapRecord(records[n], randomId(n))]
  }

  /** The cards shown when the request fails. */
  const Fallback: seq<Card> := [
    Card("1", "Mays Hill Apartments", HouseAsset, 90.0, 70.0, "Constructed", Missing),
    Card("2", "Park Sydney Stage 2", HouseAsset, 80.0, 60.0, "Company", Missing),
    Card("3", "Oran Park Resi 3", HouseAsset, 0.0, 5.0, "Constructed", Missing)
  ]

  /** Every card shows its two gauges inside 0..100. */
  predicate GaugesInRange(cards: seq<Card>) {
    forall i :: 0 <= i < |cards| ==>
      0.0 <= cards[i].redProgress <= 100.0 && 0.0 <= cards[i].greenProgress <= 100.0
  }

  /** The list `fetchProjects` leaves in `data` for each way the request ends. */
  function Loaded(outcome: Fetch.Outcome<DashboardRecord>, randomId: nat -> string): (data: seq<Card>)
    ensures outcome.Threw? ==> data == Fallback
    ensures outcome.Body? && outcome.data.None? ==> data == []
    ensures outcome.Body? && outcome.data.Some? ==>
      |data| == |outcome.data.value|
      && forall i :: 0 <= i < |data| ==> data[i] == MapRecord(outcome.data.value[i], randomId(i))
    ensures GaugesInRange(data)
  {
    match outcome
    case Threw => Fallback
    case Body(None) => []
    case Body(Some(records)) => MapRecords(records, randomId)
  }

  function CardTitle(c: Card): string {
    c.title
  }

  /** `filteredData`: the cards whose lower-cased title contains the
      lower-cased query, in their original order. */
  function Visible(data: seq<Card>, query: string): (shown: seq<Card>)
    ensures |shown| <= |data|
    ensures forall k :: 0 <= k < |shown| ==> shown[k] in data && Search.Matches(shown[k].title, query)
    ensures forall i :: 0 <= i < |data| && Search.Matches(data[i].title, query) ==> data[i] in shown
    ensures GaugesInRange(data) ==> GaugesInRange(shown)
  {
    Search.Filter(data, CardTitle, query)
  }

  /** An empty search box shows every loaded card. */
  lemma EmptyQueryShowsAll(data: seq<Card>)
    ensures Visible(data, "") == data
  {
    Search.FilterEmptyQueryKeepsAll(data, CardTitle);
  }

  /** The shown cards are the loaded cards at the matching positions, in
      their original order and with their multiplicity. */
  lemma VisibleIsSubsequence(data: seq<Card>, query: string)
    ensures var idx := Search.KeptIndices(data, CardTitle, query);
      && |Visible(data, query)| == |idx|
      && forall k :: 0 <= k < |idx| ==> Visible(data, query)[k] == data[idx[k]]
  {
    Search.FilterIsSubsequence(data, CardTitle, query);
  }

  /** The fallback cards keep their ids and fixed progress values. */
  lemma FallbackCards()
    ensures |Fallback| == 3
    ensures Fallback[0].id == "1" && Fallback[1].id == "2" && Fallback[2].id == "3"
    ensures forall i :: 0 <= i < |Fallback| ==> Fallback[i].image == HouseAsset
    ensures GaugesInRange(Fallback)
  {
  }
}

=== FILE: phases.dfy ===
/** The phases screen of one project
    (src/DrawerTab/SubScreen/CurrentProjectsPhases.js): pressing a phase card
    opens the design tasks or the Finishes dialog, and the dialog's four
    dropdowns feed a Confirm button that needs a building and a core. */
module Phases {
  import opened Values
  import Dropdown

  /** A card of the vertical phase list. */
  datatype PhaseCard = PhaseCard(id: string, title: string, lastWeek: string, redProgress: int, greenProgress: int)

  const Cards: seq<PhaseCard> := [
    PhaseCard("1", "Design", "7.83%", 90, 70),
    PhaseCard("2", "Structure", "7.83%", 80, 60),
    PhaseCard("3", "Site Setup", "7.83%", 0, 5),
    PhaseCard("4", "Sub Structure", "7.83%", 0, 5),
    PhaseCard("5", "Finishes", "7.83%", 0, 5),
    PhaseCard("6", "Handover", "7.83%", 0, 5)
  ]

  const BuildingOptions: seq<Dropdown.Choice> :=
    [Dropdown.Choice("A1", "A"), Dropdown.Choice("A2", "B"), Dropdown.Choice("A3", "C")]
  const CoreOptions: seq<Dropdown.Choice> :=
    [Dropdown.Choice("Core 1", "C1"), Dropdown.Choice("Core 2", "C2")]
  const LevelOptions: seq<Dropdown.Choice> :=
    [Dropdown.Choice("Level 1", "L1"), Dropdown.Choice("Level 2", "L2")]
  const UnitOptions: seq<Dropdown.Choice> :=
    [Dropdown.Choice("Unit 1", "U101"), Dropdown.Choice("Unit 2", "U102")]

  const MissingSelection := "Please select both Building and Core before proceeding."

  /** The screen's state: whether the Finishes dialog shows, and the four
      selections (`null` is None). */
  datatype Screen = Screen(
    modalVisible: bool,
    building: Option<string>,
    core: Option<string>,
    level: Option<string>,
    unit: Option<string>)

  const Initial := Screen(false, None, None, None, None)

  datatype Slot = Building | Core | Level | Unit

  datatype Event =
    | PressCard(card: PhaseCard)
    | Select(slot: Slot, value: string)   // a dropdown's onSelect
    | Cancel
    | Confirm
    | RequestClose                        // the Modal's onRequestClose

  /** What the screen does besides changing its own state. */
  datatype Effect =
    | Nothing
    | OpenDesignTask(project: PhaseCard)
    | OpenCoreTask(building: string, core: string, level: Option<string>, unit: Option<string>)
    | Alert(message: string)

  datatype Step = Step(screen: Screen, effect: Effect)

  /** The Confirm guard: both the building and the core are selected. */
  predicate ReadyToConfirm(s: Screen) {
    Dropdown.Chosen(s.building) && Dropdown.Chosen(s.core)
  }

  function OnPressCard(s: Screen, card: PhaseCard): (r: Step)
    ensures card.title == "Design" ==> r == Step(s, OpenDesignTask(card))
    ensures card.title == "Finishes" ==> r == Step(s.(modalVisible := true), Nothing)
    ensures card.title != "Design" && card.title != "Finishes" ==> r == Step(s, Nothing)
  {
    if card.title == "Design" then Step(s, OpenDesignTask(card))
    else if card.title == "Finishes" then Step(s.(modalVisible := true), Nothing)
    else Step(s, Nothing)
  }

  function OnSelect(s: Screen, slot: Slot, value: string): (r: Screen)
    ensures slot == Building ==> r == s.(building := Some(value))
    ensures slot == Core ==> r == s.(core := Some(value))
    ensures slot == Level ==> r == s.(level := Some(value))
    ensures slot == Unit ==> r == s.(unit := Some(value))
  {
    match slot
    case Building => s.(building := Some(value))
    case Core => s.(core := Some(value))
    case Level => s.(level := Some(value))
    case Unit => s.(unit := Some(value))
  }

  /** Confirm closes the dialog and opens the core tasks, passing all four
      selections, when the building and the core are chosen; otherwise it
      raises the alert and changes nothing. */
  function OnConfirm(s: Screen): (r: Step)
    ensures ReadyToConfirm(s) ==>
      && !r.screen.modalVisible
      && r.effect == OpenCoreTask(s.building.value, s.core.value, s.level, s.unit)
    ensures !ReadyToConfirm(s) ==> r == Step(s, Alert(MissingSelection))
    ensures r.screen.building == s.building && r.screen.core == s.core
    ensures r.screen.level == s.level && r.screen.unit == s.unit
  {
    if ReadyToConfirm(s) then
      Step(s.(modalVisible := false), OpenCoreTask(s.building.value, s.core.value, s.level, s.unit))
    else
      Step(s, Alert(MissingSelection))
  }

  /** One event handled by the screen. */
  function Handle(s: Screen, e: Event): (r: Step)
    ensures e.PressCard? ==> r == OnPressCard(s, e.card)
    ensures e.Select? ==> r == Step(OnSelect(s, e.slot, e.value), Nothing)
    ensures e.Confirm? ==> r == OnConfirm(s)
    ensures e.Cancel? || e.RequestClose? ==> r == Step(s.(modalVisible := false), Nothing)
    ensures e.Select? ==> r.effect == Nothing && r.screen.modalVisible == s.modalVisible
    ensures r.effect.OpenCoreTask? ==> e.Confirm? && ReadyToConfirm(s)
    ensures r.effect.OpenDesignTask? ==> e.PressCard? && e.card.title == "Design"
    ensures r.screen.modalVisible && !s.modalVisible ==> e.PressCard? && e.card.title == "Finishes"
  {
    match e
    case PressCard(card) => OnPressCard(s, card)
    case Select(slot, value) => Step(OnSelect(s, slot, value), Nothing)
    case Cancel => Step(s.(modalVisible := false), Nothing)
    case Confirm => OnConfirm(s)
    case RequestClose => Step(s.(modalVisible := false), Nothing)
  }

  /** Of the six phase cards, only Design navigates and only Finishes opens
      the dialog. */
  lemma CardPresses(s: Screen, i: int)
    requires 0 <= i < |Cards|
    ensures Handle(s, PressCard(Cards[i])).effect.OpenDesignTask? <==> i == 0
    ensures Handle(s, PressCard(Cards[i])).screen.modalVisible <==> i == 4 || s.modalVisible
  {
  }

  /** Cancel keeps every selection: reopening the dialog shows them again,
      and Confirm then behaves as it would have before the Cancel. */
  lemma CancelKeepsSelections(s: Screen)
    ensures var reopened := Handle(Handle(s, Cancel).screen, PressCard(Cards[4])).screen;
      reopened == s.(modalVisible := true)
      && Handle(reopened, Confirm).effect == Handle(s, Confirm).effect
  {
  }

  /** Picking any building and any core from their lists is enough for
      Confirm to open the core tasks, whatever level and unit hold. */
  lemma ConfirmAfterChoosing(s: Screen, b: int, c: int)
    requires 0 <= b < |BuildingOptions| && 0 <= c < |CoreOptions|
    ensures var picked := OnSelect(OnSelect(s, Building, BuildingOptions[b].value), Core, CoreOptions[c].value);
      Handle(picked, Confirm)
        == Step(picked.(modalVisible := false),
                OpenCoreTask(BuildingOptions[b].value, CoreOptions[c].value, s.level, s.unit))
  {
  }

  /** The `label` prop of each of the dialog's dropdowns. */
  function SlotHeading(slot: Slot): string {
    match slot
    case Building => "Building"
    case Core => "Core"
    case Level => "Level"
    case Unit => "Unit"
  }

  /** The `options` of each of the dialog's dropdowns; no two options of a
      list share a value, and no value is empty. */
  function SlotOptions(slot: Slot): (options: seq<Dropdown.Choice>)
    ensures |options| >= 2
    ensures forall i :: 0 <= i < |options| ==> options[i].value != ""
    ensures forall j, k :: 0 <= j < k < |options| ==> options[j].value != options[k].value
  {
    match slot
    case Building => BuildingOptions
    case Core => CoreOptions
    case Level => LevelOptions
    case Unit => UnitOptions
  }

  /** The `selectedValue` of each of the dialog's dropdowns. */
  function Selected(s: Screen, slot: Slot): Option<string> {
    match slot
    case Building => s.building
    case Core => s.core
    case Level => s.level
    case Unit => s.unit
  }

  /** In each of the dialog's four dropdowns, choosing an option stores its
      value in that dropdown's slot, and the button then shows the option's
      label. */
  lemma DialogShowsChoice(s: Screen, slot: Slot, i: int)
    requires 0 <= i < |SlotOptions(slot)|
    ensures var picked := Handle(s, Select(slot, SlotOptions(slot)[i].value)).screen;
      && Selected(picked, slot) == Some(SlotOptions(slot)[i].value)
      && Dropdown.ButtonText(SlotHeading(slot), SlotOptions(slot), Selected(picked, slot))
        == Some(SlotOptions(slot)[i].caption)
  {
    Dropdown.LabelOfDistinct(SlotOptions(slot), i);
  }

  /** From the initial state, Confirm only alerts. */
  lemma InitialConfirmAlerts()
    ensures Handle(Initial, Confirm) == Step(Initial, Alert(MissingSelection))
  {
  }
}

=== FILE: project_screen.dfy ===
/** The project list in the drawer (src/DrawerTab/ProjectScreen.tsx): API
    records are mapped to list entries with address lines, a failed request
    falls back to three fixed projects, the search box filters by title,
    a status picker opens and closes, and pressing an entry navigates. */
module ProjectScreen {
  import opened Values
  import Search
  import Fetch
  import Dropdown

  datatype Location = Location(
    addressLine1: Field<string>,
    addressLine2: Field<string>,
    city: Field<string>,
    state: Field<string>)

  /** One element of `result.data` from the project query. */
  datatype ProjectRecord = ProjectRecord(
    id: Field<RawId>,
    name: Field<string>,
    profilePicture: Field<string>,
    location: Field<Location>)

  /** A list entry. `title` is the record's `name` as it came, so it may be
      absent; `projectId` is the record's id before `toString`. */
  datatype Project = Project(
    id: string,
    title: Field<string>,
    profilePicture: Field<string>,
    addressLine1: string,
    addressLine2: string,
    addressLine3: string,
    image: Image,
    projectId: RawId)

  const NoAddress := "Address not available"
  const Country := "Australia"

  /** `item.location?.<field>` for one of the four location fields. */
  function LocationField(loc: Field<Location>, pick: Location -> Field<string>): Field<string> {
    if loc.Present? then pick(loc.value) else Missing
  }

  function Line1Of(l: Location): Field<string> { l.addressLine1 }
  function Line2Of(l: Location): Field<string> { l.addressLine2 }
  function CityOf(l: Location): Field<string> { l.city }
  function StateOf(l: Location): Field<string> { l.state }

  /** `item.location?.address_line_1 || 'Address not available'`. */
  function AddressLine1(loc: Field<Location>): (r: string)
    ensures loc.Present? && TruthyText(loc.value.addressLine1) ==> r == loc.value.addressLine1.value
    ensures !loc.Present? || !TruthyText(loc.value.addressLine1) ==> r == NoAddress
  {
    OrText(LocationField(loc, Line1Of), NoAddress)
  }

  /** `item.location?.address_line_2 || ''`. */
  function AddressLine2(loc: Field<Location>): (r: string)
    ensures loc.Present? && TruthyText(loc.value.addressLine2) ==> r == loc.value.addressLine2.value
    ensures !loc.Present? || !TruthyText(loc.value.addressLine2) ==> r == ""
  {
    OrText(LocationField(loc, Line2Of), "")
  }

  /** `item.location?.city + ', ' + item.location?.state || 'Australia'`.
      `+` binds tighter than `||`, so the left operand is the joined text,
      which always holds ", " and is never empty: the country fallback is
      never taken, and a missing location or city shows "undefined". */
  function AddressLine3(loc: Field<Location>): (r: string)
    ensures r == ConcatText(LocationField(loc, CityOf)) + ", " + ConcatText(LocationField(loc, StateOf))
    ensures r != Country
    ensures !loc.Present? ==> r == "undefined, undefined"
  {
    var joined := ConcatText(LocationField(loc, CityOf)) + ", " + ConcatText(LocationField(loc, StateOf));
    var shown := if joined != "" then joined else Country;
    assert joined[|joined| - |ConcatText(LocationField(loc, StateOf))| - 2] == ',';
    shown
  }

  /** The object literal built for one record inside `result.data.map`.
      None: `item.id.toString()` threw because the id is absent or null. */
  function MapRecord(rec: ProjectRecord): (r: Option<Project>)
    ensures r.None? <==> !rec.id.Present?
    ensures r.Some? ==> r.value.id == IdToString(rec.id.value) && r.value.projectId == rec.id.value
    ensures r.Some? ==> r.value.title == rec.name && r.value.profilePicture == rec.profilePicture
    ensures r.Some? ==>
      && r.value.addressLine1 == AddressLine1(rec.location)
      && r.value.addressLine2 == AddressLine2(rec.location)
      && r.value.addressLine3 == AddressLine3(rec.location)
    ensures r.Some? ==> (r.value.image.Remote? <==> TruthyText(rec.profilePicture))
    ensures r.Some? && r.value.image.Remote? ==> r.value.image.uri == rec.profilePicture.value
  {
    if !rec.id.Present? then None else Some(Build(rec))
  }

  /** The object literal for a record whose id is present. */
  function Build(rec: ProjectRecord): Project
    requires rec.id.Present?
  {
    Project(
      IdToString(rec.id.value),
      rec.name,
      rec.profilePicture,
      AddressLine1(rec.location),
      AddressLine2(rec.location),
      AddressLine3(rec.location),
      PictureOf(rec.profilePicture),
      rec.id.value)
  }

  /** Every record carries an id, so `item.id.toString()` never throws. */
  predicate AllIdentified(records: seq<ProjectRecord>) {
    forall i :: 0 <= i < |records| ==> records[i].id.Present?
  }

  /** The map over records that all carry an id: one project per record,
      in order. */
  function MapIdentified(records: seq<ProjectRecord>): (ps: seq<Project>)
    requires AllIdentified(records)
    ensures |ps| == |records|
    ensures forall i :: 0 <= i < |records| ==> ps[i] == Build(records[i])
  {
    if |records| == 0 then []
    else
      var n := |records| - 1;
      var init := records[..n];
      var rest := MapIdentified(init);
      var all := rest + [Build(records[n])];
      forall i | 0 <= i < |records|
        ensures all[i] == Build(records[i])
      {
        if i < n {
          assert init[i] == records[i];
        }
      }
      all
  }

  /** `result.data.map(...)`: None when mapping some record throws, which
      abandons the whole list. */
  function MapRecords(records: seq<ProjectRecord>): (r: Option<seq<Project>>)
    ensures r.None? <==> exists i :: 0 <= i < |records| && !records[i].id.Present?
    ensures r.Some? ==> |r.value| == |records|
    ensures r.Some? ==> forall i :: 0 <= i < |records| ==> MapRecord(records[i]) == Some(r.value[i])
  {
    if AllIdentified(records) then
      var ps := MapIdentified(records);
      assert forall i :: 0 <= i < |records| ==> MapRecord(records[i]) == Some(ps[i]);
      Some(ps)
    else None
  }

  /** The projects shown when the request fails. */
  const Fallback: seq<Project> := [
    Project("1", Present("Maya Hill Apartments"), Missing, "1- - 16 Patricia St",
      "Mays Hill NSW 2145", Country, HouseAsset, TextId("1")),
    Project("2", Present("Park Sydney Stage 2"), Missing, "57 Ashmore Street",
      "Erisfineville, New South Wales 2043", Country, HouseAsset, TextId("2")),
    Project("3", Present("Oran Park Rest 3"), Missing, "62 Central Avenue",
      "Oran Park, New South Wales 2570", Country, HouseAsset, TextId("3"))
  ]

  /** The list `fetchProjects` leaves in `projectData` for each way the
      request ends. A record without an id throws inside the `try`, so the
      fallback replaces the whole response. */
  function Loaded(outcome: Fetch.Outcome<ProjectRecord>): (data: seq<Project>)
    ensures outcome.Threw? ==> data == Fallback
    ensures outcome.Body? && outcome.data.None? ==> data == []
    ensures outcome.Body? && outcome.data.Some? ==>
      var records := outcome.data.value;
      if exists i :: 0 <= i < |records| && !records[i].id.Present? then data == Fallback
      else |data| == |records| && forall i :: 0 <= i < |records| ==> MapRecord(records[i]) == Some(data[i])
  {
    match outcome
    case Threw => Fallback
    case Body(None) => []
    case Body(Some(records)) =>
      match MapRecords(records)
      case None => Fallback
      case Some(projects) => projects
  }

  /** The title as the filter callback sees it once it is known to be a string. */
  function TitleText(p: Project): string {
    if p.title.Present? then p.title.value else ""
  }

  /** `filteredData`. None: `item.title.toLowerCase()` threw on an entry
      whose title is absent or null. */
  function Visible(data: seq<Project>, text: string): (r: Option<seq<Project>>)
    ensures r.None? <==> exists i :: 0 <= i < |data| && !data[i].title.Present?
    ensures r.Some? ==> |r.value| <= |data|
    ensures r.Some? ==> forall k :: 0 <= k < |r.value| ==>
      r.value[k] in data && Search.Matches(r.value[k].title.value, text)
    ensures r.Some? ==> forall i :: 0 <= i < |data| && Search.Matches(data[i].title.value, text) ==>
      data[i] in r.value
  {
    if exists i :: 0 <= i < |data| && !data[i].title.Present? then None
    else Some(Search.Filter(data, TitleText, text))
  }

  /** The search over a list whose titles are all present keeps order: the
      k-th shown entry is the entry at the k-th kept position. */
  lemma VisibleIsSubsequence(data: seq<Project>, text: string)
    requires forall i :: 0 <= i < |data| ==> data[i].title.Present?
    ensures Visible(data, text).Some?
    ensures var idx := Search.KeptIndices(data, TitleText, text);
      |Visible(data, text).value| == |idx|
      && forall k :: 0 <= k < |idx| ==> Visible(data, text).value[k] == data[idx[k]]
  {
    Search.FilterIsSubsequence(data, TitleText, text);
  }

  /** The fallback list can always be searched, and an empty search shows
      all of it. */
  lemma FallbackSearchable(text: string)
    ensures Visible(Fallback, text).Some?
    ensures Visible(Fallback, "") == Some(Fallback)
  {
    Search.FilterEmptyQueryKeepsAll(Fallback, TitleText);
  }

  /** Records that all carry an id and a name load into a searchable list. */
  lemma NamedRecordsSearchable(records: seq<ProjectRecord>, text: string)
    requires forall i :: 0 <= i < |records| ==> records[i].id.Present? && records[i].name.Present?
    ensures Visible(Loaded(Fetch.Body(Some(records))), text).Some?
  {
    var data := Loaded(Fetch.Body(Some(records)));
    assert forall i :: 0 <= i < |data| ==> MapRecord(records[i]) == Some(data[i]);
  }

  /** The navigation `handleProjectPress` performs. */
  datatype Navigation = Navigation(route: string, project: Project, projectId: RawId)

  const PhasesTitle := "Oran Park Rest 3"

  /** Route to the phases screen only for the project titled exactly
      "Oran Park Rest 3"; every other entry opens the details screen. Both
      carry the entry and its `project_id`. */
  function Press(p: Project): (nav: Navigation)
    ensures nav.route == "CurrentProjectsPhases" <==> p.title == Present(PhasesTitle)
    ensures nav.route != "CurrentProjectsPhases" ==> nav.route == "ProjectDetails"
    ensures nav.project == p && nav.projectId == p.projectId
  {
    if p.title == Present(PhasesTitle) then Navigation("CurrentProjectsPhases", p, p.projectId)
    else Navigation("ProjectDetails", p, p.projectId)
  }

  /** Of the fallback projects, only the third opens the phases screen. */
  lemma FallbackRoutes()
    ensures Press(Fallback[0]).route == "ProjectDetails"
    ensures Press(Fallback[1]).route == "ProjectDetails"
    ensures Press(Fallback[2]).route == "CurrentProjectsPhases"
    ensures Fallback[0].id == "1" && Fallback[1].id == "2" && Fallback[2].id == "3"
  {
  }

  // The status picker.

  const StatusOptions: seq<Dropdown.Choice> := [
    Dropdown.Choice("Active", "active"),
    Dropdown.Choice("Archive", "archive")
  ]

  datatype StatusMenu = StatusMenu(status: string, open: bool)

  const InitialMenu := StatusMenu("active", false)

  /** `handleStatusSelect`: take the chosen status and close the list. */
  function SelectStatus(m: StatusMenu, status: string): (r: StatusMenu)
    ensures r.status == status && !r.open
  {
    StatusMenu(status, false)
  }

  /** `toggleDropdown`: flip the list, keep the status. */
  function Toggle(m: StatusMenu): (r: StatusMenu)
    ensures r.open == !m.open && r.status == m.status
  {
    m.(open := !m.open)
  }

  /** The backdrop behind the open list closes it and keeps the status. */
  function Dismiss(m: StatusMenu): (r: StatusMenu)
    ensures !r.open && r.status == m.status
  {
    m.(open := false)
  }

  /** The label on the picker button. */
  function StatusLabel(m: StatusMenu): (r: Option<string>)
    ensures r.Some? <==> m.status == "active" || m.status == "archive"
    ensures m.status == "active" ==> r == Some("Active")
    ensures m.status == "archive" ==> r == Some("Archive")
  {
    Dropdown.LabelOf(StatusOptions, m.status)
  }

  /** The picker starts closed on "active", so its button reads "Active". */
  lemma InitialMenuShowsActive()
    ensures !InitialMenu.open && StatusLabel(InitialMenu) == Some("Active")
  {
  }

  /** Toggling twice restores the menu; selecting is idempotent and
      forgets whether the list was open. */
  lemma StatusMenuLaws(m: StatusMenu, status: string)
    ensures Toggle(Toggle(m)) == m
    ensures SelectStatus(SelectStatus(m, status), status) == SelectStatus(m, status)
    ensures SelectStatus(Toggle(m), status) == SelectStatus(m, status)
    ensures Dismiss(Dismiss(m)) == Dismiss(m)
  {
  }
}

=== FILE: project_store.dfy ===
/** The persisted selection store (src/Store/useProjectStore.js): the id of
    the selected project and the cached project data, each `null` (None)
    until set. `Id` and `Data` are whatever callers pass in. */
module ProjectStore {
  import opened Values

  datatype Store<Id, Data> = Store(selectedProjectId: Option<Id>, projectData: Option<Data>)

  function Initial<Id, Data>(): (s: Store<Id, Data>)
    ensures s.selectedProjectId.None? && s.projectData.None?
  {
    Store(None, None)
  }

  /** `set({ selectedProjectId: projectId })`: zustand merges the patch, so
      the cached data stays. */
  function SetSelectedProjectId<Id, Data>(s: Store<Id, Data>, projectId: Option<Id>): (r: Store<Id, Data>)
    ensures r.selectedProjectId == projectId
    ensures r.projectData == s.projectData
  {
    s.(selectedProjectId := projectId)
  }

  /** `set({ projectData: data })`. */
  function SetProjectData<Id, Data>(s: Store<Id, Data>, data: Option<Data>): (r: Store<Id, Data>)
    ensures r.projectData == data
    ensures r.selectedProjectId == s.selectedProjectId
  {
    s.(projectData := data)
  }

  /** `clearProjectData`: both fields back to null, from any state. */
  function Clear<Id, Data>(s: Store<Id, Data>): (r: Store<Id, Data>)
    ensures r == Initial()
  {
    Store(None, None)
  }

  /** Each mutator is idempotent, the two setters commute, and the last
      write to a field wins. */
  lemma StoreLaws<Id, Data>(s: Store<Id, Data>, a: Option<Id>, b: Option<Id>, d: Option<Data>, e: Option<Data>)
    ensures SetSelectedProjectId(SetSelectedProjectId(s, a), a) == SetSelectedProjectId(s, a)
    ensures SetProjectData(SetProjectData(s, d), d) == SetProjectData(s, d)
    ensures Clear(Clear(s)) == Clear(s)
    ensures SetSelectedProjectId(SetProjectData(s, d), a) == SetProjectData(SetSelectedProjectId(s, a), d)
    ensures SetSelectedProjectId(SetSelectedProjectId(s, a), b) == SetSelectedProjectId(s, b)
    ensures SetProjectData(SetProjectData(s, d), e) == SetProjectData(s, e)
    ensures Clear(SetSelectedProjectId(s, a)) == Clear(SetProjectData(s, d)) == Initial()
  {
  }

  /** Setting both fields after a clear rebuilds any state. */
  lemma ClearThenSetRestores<Id, Data>(s: Store<Id, Data>)
    ensures SetProjectData(SetSelectedProjectId(Clear(s), s.selectedProjectId), s.projectData) == s
  {
  }
}

=== FILE: search.dfy ===
/** The search rule both list screens apply to their data:
    `items.filter(item => item.title.toLowerCase().includes(query.toLowerCase()))`.
    Lower-casing is modelled on ASCII letters only. */
module Search {

  function LowerChar(c: char): char {
    if 'A' <= c <= 'Z' then (c as int + 32) as char else c
  }

  /** `s.toLowerCase()`, restricted to ASCII letters. */
  function ToLower(s: string): (r: string)
    ensures |r| == |s|
    ensures forall i :: 0 <= i < |s| ==> r[i] == LowerChar(s[i])
  {
    seq(|s|, i requires 0 <= i < |s| => LowerChar(s[i]))
  }

  /** A lower-cased string holds no upper-case letter, and every other
      character is left where it was. */
  lemma ToLowerHasNoUpper(s: string)
    ensures forall i :: 0 <= i < |s| ==> !('A' <= ToLower(s)[i] <= 'Z')
    ensures forall i :: 0 <= i < |s| && !('A' <= s[i] <= 'Z') ==> ToLower(s)[i] == s[i]
  {
  }

  lemma ToLowerIdempotent(s: string)
    ensures ToLower(ToLower(s)) == ToLower(s)
  {
  }

  /** `needle` occurs in `hay` starting at index `i`. */
  predicate OccursAt(hay: string, needle: string, i: int) {
    0 <= i && i + |needle| <= |hay| && hay[i..i + |needle|] == needle
  }

  /** `hay.includes(needle)`: scans the start positions left to right. */
  function Includes(hay: string, needle: string): (found: bool)
    ensures found <==> exists i :: OccursAt(hay, needle, i)
    decreases |hay|
  {
    if |needle| > |hay| then false
    else if hay[..|needle|] == needle then (assert OccursAt(hay, needle, 0); true)
    else
      var rest := Includes(hay[1..], needle);
      assert rest ==> exists i :: OccursAt(hay, needle, i) by {
        if rest {
          var j :| OccursAt(hay[1..], needle, j);
          assert hay[1..][j..j + |needle|] == hay[j + 1..j + 1 + |needle|];
          assert OccursAt(hay, needle, j + 1);
        }
      }
      assert (exists i :: OccursAt(hay, needle, i)) ==> rest by {
        if exists i :: OccursAt(hay, needle, i) {
          var i :| OccursAt(hay, needle, i);
          assert i != 0;
          assert hay[1..][i - 1..i - 1 + |needle|] == hay[i..i + |needle|];
          assert OccursAt(hay[1..], needle, i - 1);
        }
      }
      rest
  }

  /** The empty query is found in every title. */
  lemma IncludesEmpty(hay: string)
    ensures Includes(hay, "")
  {
    assert OccursAt(hay, "", 0);
  }

  /** The keep-condition of the filter callback. */
  predicate Matches(title: string, query: string) {
    Includes(ToLower(title), ToLower(query))
  }

  /** `items.filter(...)` with the search callback: the items are visited
      left to right and each match is appended to the result. */
  function Filter<T>(items: seq<T>, title: T -> string, query: string): (kept: seq<T>)
    ensures |kept| <= |items|
    ensures forall k :: 0 <= k < |kept| ==> kept[k] in items && Matches(title(kept[k]), query)
    ensures forall i :: 0 <= i < |items| && Matches(title(items[i]), query) ==> items[i] in kept
  {
    if |items| == 0 then []
    else
      var last := items[|items| - 1];
      var init := items[..|items| - 1];
      assert items == init + [last];
      Filter(init, title, query) + (if Matches(title(last), query) then [last] else [])
  }

  /** The positions of `items` the filter keeps, in increasing order. */
  function KeptIndices<T>(items: seq<T>, title: T -> string, query: string): (idx: seq<int>)
    ensures forall k :: 0 <= k < |idx| ==> 0 <= idx[k] < |items| && Matches(title(items[idx[k]]), query)
    ensures forall k, l :: 0 <= k < l < |idx| ==> idx[k] < idx[l]
    ensures forall i :: 0 <= i < |items| && Matches(title(items[i]), query) ==> i in idx
  {
    if |items| == 0 then []
    else
      var n := |items| - 1;
      var init := items[..n];
      var prior := KeptIndices(init, title, query);
      assert forall k :: 0 <= k < |prior| ==> items[prior[k]] == init[prior[k]];
      prior + (if Matches(title(items[n]), query) then [n] else [])
  }

  /** The filtered list is exactly the sub-sequence of matching items:
      its k-th element is the item at the k-th kept position. */
  lemma {:induction false} FilterIsSubsequence<T>(items: seq<T>, title: T -> string, query: string)
    ensures |Filter(items, title, query)| == |KeptIndices(items, title, query)|
    ensures forall k :: 0 <= k < |Filter(items, title, query)| ==>
      Filter(items, title, query)[k] == items[KeptIndices(items, title, query)[k]]
  {
    if |items| > 0 {
      var n := |items| - 1;
      var init := items[..n];
      FilterIsSubsequence(init, title, query);
      var prior := KeptIndices(init, title, query);
      var f := Filter(init, title, query);
      var keep := Matches(title(items[n]), query);
      var kept := Filter(items, title, query);
      var idx := KeptIndices(items, title, query);
      assert kept == f + (if keep then [items[n]] else []);
      assert idx == prior + (if keep then [n] else []);
      forall k | 0 <= k < |kept|
        ensures kept[k] == items[idx[k]]
      {
        if k < |f| {
          assert kept[k] == f[k] && idx[k] == prior[k];
          assert items[prior[k]] == init[prior[k]];
        } else {
          assert kept[k] == items[n] && idx[k] == n;
        }
      }
    }
  }

  /** An empty query keeps every item. */
  lemma {:induction false} FilterEmptyQueryKeepsAll<T>(items: seq<T>, title: T -> string)
    ensures Filter(items, title, "") == items
  {
    if |items| > 0 {
      var n := |items| - 1;
      FilterEmptyQueryKeepsAll(items[..n], title);
      IncludesEmpty(ToLower(title(items[n])));
      assert items == items[..n] + [items[n]];
    }
  }

  /** Filtering visits the list left to right, so it distributes over
      concatenation. */
  lemma {:induction false} FilterConcat<T>(a: seq<T>, b: seq<T>, title: T -> string, query: string)
    ensures Filter(a + b, title, query) == Filter(a, title, query) + Filter(b, title, query)
    decreases |b|
  {
    if |b| > 0 {
      var n := |b| - 1;
      FilterConcat(a, b[..n], title, query);
      assert (a + b)[..|a + b| - 1] == a + b[..n];
    } else {
      assert a + b == a;
    }
  }

  /** Searching the result again with the same query changes nothing. */
  lemma {:induction false} FilterIdempotent<T>(items: seq<T>, title: T -> string, query: string)
    ensures Filter(Filter(items, title, query), title, query) == Filter(items, title, query)
  {
    if |items| > 0 {
      var n := |items| - 1;
      var init := items[..n];
      var f := Filter(init, title, query);
      var tail := if Matches(title(items[n]), query) then [items[n]] else [];
      assert Filter(items, title, query) == f + tail;
      FilterIdempotent(init, title, query);
      FilterConcat(f, tail, title, query);
      assert Filter(tail, title, query) == tail by {
        if |tail| == 1 {
          assert tail[..0] == [];
        }
      }
    }
  }

  /** The query's case does not matter: searching with the lower-cased
      query keeps the same items. */
  lemma {:induction false} FilterIgnoresQueryCase<T>(items: seq<T>, title: T -> string, query: string)
    ensures Filter(items, title, ToLower(query)) == Filter(items, title, query)
  {
    ToLowerIdempotent(query);
    if |items| > 0 {
      FilterIgnoresQueryCase(items[..|items| - 1], title, query);
    }
  }
}

=== FILE: values.dfy ===
/** Values as the screens receive them from the project API, and the few
    JavaScript operators the screens apply to them: truthiness, `||` with a
    default, string conversion under `+`, and `toString` on a record id. */
module Values {

  datatype Option<+T> = None | Some(value: T)

  /** A field read from a parsed JSON record: absent (reads as `undefined`),
      JSON `null`, or present with a value. */
  datatype Field<+T> = Missing | Null | Present(value: T)

  /** Where an `<Image>` takes its picture from: a remote `{ uri }` or the
      bundled house photograph. */
  datatype Image = Remote(uri: string) | HouseAsset

  /** JavaScript truthiness of a string field: present and non-empty. */
  predicate TruthyText(f: Field<string>) {
    f.Present? && f.value != ""
  }

  /** JavaScript truthiness of a numeric field: present and non-zero. */
  predicate TruthyNumber(f: Field<real>) {
    f.Present? && f.value != 0.0
  }

  /** `f || fallback` on a string field. */
  function OrText(f: Field<string>, fallback: string): (r: string)
    ensures TruthyText(f) ==> r == f.value
    ensures !TruthyText(f) ==> r == fallback
  {
    if TruthyText(f) then f.value else fallback
  }

  /** The text an operand of string `+` turns into. */
  function ConcatText(f: Field<string>): (r: string)
    ensures f.Present? ==> r == f.value
    ensures f.Missing? ==> r == "undefined"
    ensures f.Null? ==> r == "null"
  {
    match f
    case Missing => "undefined"
    case Null => "null"
    case Present(s) => s
  }

  /** `profile ? { uri: profile } : require('house.jpg')`. */
  function PictureOf(profile: Field<string>): (img: Image)
    ensures img.Remote? <==> TruthyText(profile)
    ensures img.Remote? ==> img.uri == profile.value
  {
    if TruthyText(profile) then Remote(profile.value) else HouseAsset
  }

  /** A record id as the API sends it: a number or a string. */
  datatype RawId = NumId(n: int) | TextId(s: string)

  /** `id.toString()`. */
  function IdToString(id: RawId): (r: string)
    ensures id.TextId? ==> r == id.s
    ensures id.NumId? ==> r == IntToString(id.n)
    ensures id.NumId? ==> |r| >= 1 && (r[0] == '-' <==> id.n < 0)
  {
    match id
    case NumId(n) => IntToString(n)
    case TextId(s) => s
  }

  /** The text of a numeric id reads back as that id. */
  lemma IdToStringReadsBack(id: RawId)
    requires id.NumId?
    ensures ParseInt(IdToString(id)) == Some(id.n)
  {
    ParseIntToString(id.n);
  }

  predicate IsDigit(c: char) {
    '0' <= c <= '9'
  }

  predicate AllDigits(s: string) {
    forall i :: 0 <= i < |s| ==> IsDigit(s[i])
  }

  function DigitChar(d: int): char
    requires 0 <= d < 10
  {
    (48 + d) as char
  }

  function DigitValue(c: char): int
    requires IsDigit(c)
  {
    c as int - 48
  }

  /** Decimal rendering of a natural number, most significant digit first. */
  function NatToString(n: nat): (s: string)
    ensures |s| >= 1
    ensures AllDigits(s)
    ensures s[0] == '0' ==> n == 0
    ensures n == 0 ==> s == "0"
    decreases n
  {
    if n < 10 then [DigitChar(n)] else NatToString(n / 10) + [DigitChar(n % 10)]
  }

  /** `Number.prototype.toString()` on an integer: a minus sign for
      negatives, then the decimal digits with no leading zero. */
  function IntToString(i: int): (s: string)
    ensures |s| >= 1
    ensures s[0] == '-' <==> i < 0
    ensures i >= 0 ==> AllDigits(s)
    ensures i < 0 ==> |s| >= 2 && AllDigits(s[1..])
    ensures s[0] == '0' ==> i == 0
    ensures i == 0 ==> s == "0"
    ensures i < 0 ==> s[1] != '0'
  {
    if i < 0 then "-" + NatToString(-i) else NatToString(i)
  }

  function ParseNat(s: string): nat
    requires AllDigits(s)
  {
    if |s| == 0 then 0 else 10 * ParseNat(s[..|s| - 1]) + DigitValue(s[|s| - 1])
  }

  /** Reads a decimal integer back, or None when `s` is not one. */
  function ParseInt(s: string): Option<int> {
    if |s| == 0 then None
    else if s[0] == '-' then
      if |s| >= 2 && AllDigits(s[1..]) then Some(0 - ParseNat(s[1..]) as int) else None
    else if AllDigits(s) then Some(ParseNat(s))
    else None
  }

  lemma {:induction false} ParseNatToString(n: nat)
    ensures ParseNat(NatToString(n)) == n
    decreases n
  {
    if n >= 10 {
      var prefix := NatToString(n / 10);
      var s := prefix + [DigitChar(n % 10)];
      assert s[..|s| - 1] == prefix;
      ParseNatToString(n / 10);
    }
  }

  /** The decimal text of an integer id reads back as that id. */
  lemma ParseIntToString(i: int)
    ensures ParseInt(IntToString(i)) == Some(i)
  {
    var s := IntToString(i);
    if i < 0 {
      var t := NatToString(-i);
      assert s == "-" + t;
      assert s[0] == '-' && s[1..] == t;
      ParseNatToString(-i);
      assert ParseInt(s) == Some(0 - ParseNat(t) as int);
    } else {
      ParseNatToString(i);
    }
  }

  /** Distinct numeric ids give distinct string ids. */
  lemma IntToStringInjective(a: int, b: int)
    ensures IntToString(a) == IntToString(b) ==> a == b
  {
    ParseIntToString(a);
    ParseIntToString(b);
  }
}
